=== FILE: README.md ===
# PixelCraft SVG generator — a Dafny model

PixelCraft is a browser page that sends a short description to a hosted
text model, asks for a 64x64 pixel-art SVG, and shows the result. This
project models the parts of it that compute something:

- **the service** `generateSvgFromPrompt`. It checks the API key, builds the
  request from a fixed system instruction and a templated user content, and
  makes one completion call. It then extracts the SVG from the reply and
  rethrows every failure with a non-empty message (module `GeminiService`);
- **the SVG extractor** inside that service (module `SvgExtractor`). It
  takes the first match of `/<svg[\s\S]*?<\/svg>/i` and adds
  `shape-rendering="crispEdges"` when the match lacks `crispEdges`. With no
  match it deletes the code fences and trims;
- **the JavaScript string operations** these rely on (module `Text`):
  `trim` with the exact ECMAScript whitespace set, an ASCII-only case fold
  that decides the same matches as `/i` for the all-ASCII pattern here, the substring search that
  `match`, `includes` and `replace` perform, `includes` itself,
  first-occurrence `replace` and global literal `replace`;
- **the form** of `components/InputSection.tsx` (module `InputSection`):
  the submit guard, the controls disabled while loading, and the suggestion
  buttons;
- **the generation status machine** of `App.tsx` (module `App`):
  IDLE/LOADING/SUCCESS/ERROR with `currentSvg` and `error`, what the page
  shows in each state, and a session that adds the form text and the prompt
  whose service call is still pending.

Shared shapes are in `Wrappers` (`Option`, `Result`) and `GenerationTypes`
(`Status`, `GeneratedSvg`, `ApiError`). `types.ts` is not part of this
model. The record shapes follow how `App.tsx` builds and reads them.

The outside world comes in as parameters. The environment variable is an
`Option<string>` key. The completion call's outcome is a `Reply`: an
answer whose text may be absent, or a thrown error whose message may be
absent. `crypto.randomUUID()` and `Date.now()` are the `id` and `timestamp`
of a `Settle` event. A run of the service records its outward effects
(client creation, completion requests), so "nothing before the key check"
and "exactly one call" are statements about that record.

The regular expression has two definitions. `InSvgLanguage` /
`IsFirstMatch` state what the pattern means: the leftmost start, then the
shortest end, because `*?` is lazy. `FirstMatch` is the search: the first
folded `<svg`, then the first folded `</svg>` at least four characters
later. `FirstMatchIsLeftmostShortest` proves the two agree.

Case handling is modelled as the code has it. The match ignores ASCII case,
but `includes('crispEdges')` and `replace('<svg', …)` do not. A reply whose
element is written `<SVG>…</SVG>` is therefore returned without the hint.
When an upper-case root has a lowercase `<svg` child, the hint goes onto the
child. The system instruction (services/geminiService.ts:29) asks for
`crispEdges` on the root `<svg>`, but the code guarantees neither that the
patch lands on the root tag nor that the extracted SVG carries
`crispEdges`. `UppercaseMatchIsNotPatched` and
`PatchKeepsSvgElement` state what it does guarantee.

The missing key is not a separate kind of error in the code. The service
throws an ordinary `Error` carrying the fixed Portuguese message, and the
same `catch` that handles completion failures passes it on. The model
follows the code: every failure is a `Result` error holding a message
string.

## Model

| member | source | states |
|---|---|---|
| Text.Trim | services/geminiService.ts:72 | `trim` yields an infix of its input with only whitespace (ECMAScript WhiteSpace and LineTerminator) cut from either side, and its own ends are not whitespace |
| Text.Fold | services/geminiService.ts:63 | an ASCII-only lowercase fold: only A–Z change, each to its lowercase a–z; every other code point is kept, and so is the length |
| Text.Find | services/geminiService.ts:63 | the search returns the leftmost occurrence at or after the start index, and `None` only when there is none |
| Text.Contains | services/geminiService.ts:67 | `includes` holds exactly when the pattern occurs somewhere, case-sensitively |
| Text.ReplaceFirst | services/geminiService.ts:68 | string-pattern `replace` changes only the leftmost occurrence and leaves a string without the pattern unchanged |
| Text.RemoveAll | services/geminiService.ts:72 | global literal `replace(…, '')` leaves a string without the pattern unchanged and shortens one that holds it by at least the pattern's length |
| SvgExtractor.FirstMatch | services/geminiService.ts:63 | the search for the match; what it finds is characterised by `FirstMatchIsLeftmostShortest` |
| SvgExtractor.FirstMatchIsLeftmostShortest | services/geminiService.ts:63 | the folded search finds exactly the leftmost-then-shortest infix in the language of `<svg[\s\S]*?<\/svg>` under `/i`, and finds nothing exactly when no infix is in that language |
| SvgExtractor.FirstMatchUnique | services/geminiService.ts:63 | a string has at most one leftmost-then-shortest match |
| SvgExtractor.Patch | services/geminiService.ts:66-70 | a match already saying `crispEdges` anywhere is returned verbatim; otherwise the attribute is inserted right after the first lowercase `<svg` and every other character is kept; with no lowercase `<svg` it is unchanged; the result says `crispEdges` exactly when the match did or had a lowercase `<svg` |
| SvgExtractor.InsertAttribute | services/geminiService.ts:68 | replacing the first `<svg` by the patched tag is an insertion of ` shape-rendering="crispEdges"` after it, and the result says `crispEdges` |
| SvgExtractor.RemoveAllFencesLeavesNone | services/geminiService.ts:72 | deleting every "```" left to right leaves no "```" behind |
| SvgExtractor.StripFences | services/geminiService.ts:72 | the fallback: "```xml", "```svg" and "```" deleted in that order, then `trim`; its properties are stated by `StripFencesClean` |
| SvgExtractor.StripFencesClean | services/geminiService.ts:72 | the fallback holds no "```", has no leading or trailing whitespace, and is plain `trim` on a reply without "```" |
| SvgExtractor.ExtractSvg | services/geminiService.ts:61-73 | with a match the result is again an `<svg`...`</svg>` string ignoring ASCII case; without one it holds no "```" and is trimmed; `ExtractUsesFirstMatch` and `ExtractFallsBackToStripping` tie the two paths to the regular expression's meaning |
| SvgExtractor.ExtractUsesFirstMatch | services/geminiService.ts:63-70 | with a match, the result is the patched first match |
| SvgExtractor.ExtractFallsBackToStripping | services/geminiService.ts:71-73 | with no match, the result is the fence-stripped, trimmed reply |
| SvgExtractor.LaterTextIgnored | services/geminiService.ts:63-66 | everything after the first match, later `<svg>` blocks included, can be replaced by any text without changing the result |
| SvgExtractor.MatchedResultIsSvgElement | services/geminiService.ts:63-70 | on the match path the result still begins with `<svg` and ends with `</svg>` (ignoring ASCII case) |
| SvgExtractor.PatchKeepsSvgElement | services/geminiService.ts:67-68 | patching a match keeps its first four characters (its opening `<svg`) and its last six (its closing `</svg>`), so it stays in the language |
| SvgExtractorCases.UppercaseMatchIsNotPatched | services/geminiService.ts:63-70 | a first match without a lowercase `s` (an upper-case `<SVG>…</SVG>`) is returned verbatim and does not say `crispEdges` |
| SvgExtractorCases.UppercaseElementIsFirstMatch | services/geminiService.ts:63 | `<SVG></SVG>` is matched by the case-insensitive pattern and has no lowercase `s` |
| GeminiService.FullPrompt | services/geminiService.ts:48 | the prompt inside the fixed sentence; `PromptRoundTrip` states it is recoverable unchanged |
| GeminiService.BuildRequest | services/geminiService.ts:50-58 | the `generateContent` argument; `SettingsIndependentOfPrompt` states that only the user content depends on the prompt |
| GeminiService.KeyConfigured | services/geminiService.ts:16 | `!process.env.GEMINI_API_KEY` is false; `MissingKeyRejectsBeforeAnyCall` and `ExactlyOneCompletionCall` state the two sides of the gate |
| GeminiService.PromptRoundTrip | services/geminiService.ts:48 | the user content is the prompt inside the fixed sentence, and the prompt can be read back from it unchanged |
| GeminiService.SettingsIndependentOfPrompt | services/geminiService.ts:23-58 | model id, system instruction and sampling settings are the same constants for every prompt |
| GeminiService.RethrownMessage | services/geminiService.ts:78 | the rethrown message is the caught message when present and non-empty, the Portuguese fallback otherwise, and never empty |
| GeminiService.RequestsIssued | services/geminiService.ts:50-59 | a completion request appears in the list exactly when the run recorded it as an effect |
| GeminiService.TryBlock | services/geminiService.ts:14-73 | the `try` block: key check, client, one request, extraction; its outcomes are stated through `GenerateSvgFromPrompt` by the lemmas below |
| GeminiService.GenerateSvgFromPrompt | services/geminiService.ts:13-80 | the whole service call; stated by `MissingKeyRejectsBeforeAnyCall`, `ExactlyOneCompletionCall`, `FailuresCarryMessage` and `AnswersAreExtracted` |
| GeminiService.MissingKeyRejectsBeforeAnyCall | services/geminiService.ts:16-21 | an absent or empty key fails with the fixed configuration message, with no client created and no request made |
| GeminiService.ExactlyOneCompletionCall | services/geminiService.ts:20-59 | with a key, the client is created with that key and exactly one request, for the templated prompt, is made; there is no retry |
| GeminiService.FailuresCarryMessage | services/geminiService.ts:75-78 | every failure carries a non-empty message; a failed completion is rethrown with its own message or the fallback |
| GeminiService.AnswersAreExtracted | services/geminiService.ts:61-73 | with a key, an answered call succeeds with the SVG extracted from the text; absent or empty text gives `""` and no error |
| InputSection.IsLoading | components/InputSection.tsx:26 | `isLoading`; `SubmitDisabledExactlyWhenRefused` states the controls it disables |
| InputSection.HandleSubmit | components/InputSection.tsx:19-24 | a prompt is forwarded exactly when the trimmed input is non-empty and the status is not LOADING, and it is the trimmed input |
| InputSection.ControlsFor | components/InputSection.tsx:26-94 | the submit button is disabled exactly when `handleSubmit` would forward nothing |
| InputSection.SubmitDisabledExactlyWhenRefused | components/InputSection.tsx:26-94 | the button is disabled exactly when the handler would refuse; field, suggestions and busy label follow `isLoading` |
| InputSection.ClickSuggestion | components/InputSection.tsx:28-94 | a click sets the input to the suggestion unless the buttons are disabled; stated by `SuggestionSubmitsVerbatim` |
| InputSection.SuggestionSubmitsVerbatim | components/InputSection.tsx:28-94 | clicking a suggestion sets the input to it, and a submit then forwards it unchanged |
| App.StartGeneration | App.tsx:20-23 | the page is LOADING with neither asset nor alert, a consistent state, whatever was shown before |
| App.FinishGeneration | App.tsx:25-43 | SUCCESS exactly on a result and ERROR exactly on a failure; success leaves `error` alone and stores the asset with the prompt, failure leaves `currentSvg` alone and sets the alert; finishing a started generation is consistent |
| App.AlertFor | App.tsx:37-42 | the alert's title is "Pixelation Failed" and its details are the caught message, or the English fallback when that is empty |
| App.HandleGenerate | App.tsx:20-44 | after a generation the state is consistent whatever it was before; success stores the service text with the prompt, failure clears the asset and sets the alert |
| App.Render | App.tsx:52-71 | at most one of alert, preview and placeholder is shown, and none while LOADING |
| App.ConsistentStateShowsOneRegion | App.tsx:52-81 | in a consistent state outside LOADING exactly one region is shown, holding the stored error or asset |
| App.Step | App.tsx:20-50 | typing and suggestion clicks never touch the page state or the pending prompt; settling and submitting never touch the form text; only a submit starts a generation; the status changes only on a submit or a settle |
| App.SubmitStartsGeneration | App.tsx:20-23 | a submit the form forwards sets LOADING, clears the asset and the alert, makes the trimmed input the pending prompt, and keeps the form text |
| App.StepPreservesInvariant | App.tsx:16-44 | every step keeps the status/asset/error relation, the pending-iff-LOADING relation, and trimmed non-empty prompts |
| App.ReplayKeepsInvariant | App.tsx:20-44 | any sequence of steps from a state with the invariant keeps it |
| App.ReachableSessionsAreConsistent | App.tsx:16-18 | every session reachable from the initial page satisfies the invariant |
| App.SubmitIgnoredWhilePending | components/InputSection.tsx:21 | while a generation is pending a submit changes nothing, so only one request is ever in flight |
| App.SubmitThenSettle | App.tsx:20-44 | a forwarded submit followed by settling with an outcome stores exactly the outcome's text with the trimmed input, or clears the asset and sets the alert for the outcome's message; no generation is left pending |
| App.GenerationRound | App.tsx:20-44 | a submit followed by the service run settling stores exactly the service's text and the trimmed prompt, or shows the service's own non-empty message |

## Left out

- The Gemini client library and the hosted model: the completion call is the `Reply` parameter, and nothing is assumed about what the model writes.
- `process.env`: the key is an `Option<string>` parameter.
- `console.error` logging in the catch block.
- A throw from the client constructor itself: the model lets only the completion call fail, so a run with a key always records the client creation and one request.
- Promise scheduling: a generation is a `Submit` step followed by a `Settle` step. Single flight comes from the submit guard, not from concurrency control. A second submit that races the re-render after `setStatus(LOADING)` is not modelled.
- The sampling settings are exact decimals (`real`). IEEE-754 rounding of 0.3 and 0.8 is not modelled.
- Text.Fold: folds ASCII letters only. Without the `u` flag, `/i` also folds non-ASCII letters (`/é/i` matches "É"). It never maps a code unit at or above 128 into ASCII, though, so for the all-ASCII pattern of services/geminiService.ts:63 both folds decide the same matches.
- Strings are sequences of Unicode scalar values, not UTF-16 code units. Every pattern here is ASCII, so matching and trimming agree with JavaScript except on lone surrogates.
- `components/SvgPreview.tsx` (download as `pixelcraft-<id>.svg`, clipboard copy, the copied-flag timer, inline rendering) and `components/Header.tsx` (static markup): browser mechanics with no logic to state.
- JSX layout, CSS classes and icons.
- SVG well-formedness and rendering: the code neither checks nor renders.
- Text.RemoveAll: its contract does not state the left-to-right, non-overlapping deletion in full; the function body is that definition, and the property that matters here (no "```" survives) is `RemoveAllFencesLeavesNone`.
- The throw path of `crypto.randomUUID()` (App.tsx:29): it runs inside the `try` and is undefined outside secure contexts, where a successful service run would end in ERROR with that TypeError's message. In the model the `id` and `timestamp` are parameters that cannot fail, so `Settle` with a result always reaches SUCCESS.

=== FILE: app.dfy ===
/**
 The generation status machine of `App.tsx` and the page around it.

 `handleGenerate` sets LOADING and clears `error` and `currentSvg`, awaits
 the service, then records either the new asset (SUCCESS) or an alert
 (ERROR). React state setters are field updates; `crypto.randomUUID()` and
 `Date.now()` are parameters. A session pairs that state with the form's
 text and with the prompt whose `handleGenerate` call is suspended at its
 `await`, so that submitting and settling are separate steps.
 */
module App {
  import opened Wrappers
  import opened Text
  import opened GenerationTypes
  import InputSection
  import GeminiService

  const FailureTitle := "Pixelation Failed"
  const FailureFallback := "The engine encountered an error while rendering your pixels."

  datatype AppState = AppState(status: Status, currentSvg: Option<GeneratedSvg>, error: Option<ApiError>)

  const InitialState := AppState(Idle, None, None)

  /** Which of `currentSvg` and `error` is set is fixed by the status. */
  predicate Consistent(s: AppState) {
    match s.status
    case Idle => s.currentSvg.None? && s.error.None?
    case Loading => s.currentSvg.None? && s.error.None?
    case Success => s.currentSvg.Some? && s.error.None?
    case Error => s.error.Some? && s.currentSvg.None?
  }

  /** `handleGenerate` up to its `await`: whatever was shown before, the
      page is now LOADING with neither an asset nor an alert, which is a
      consistent state. */
  function StartGeneration(s: AppState): (t: AppState)
    ensures Consistent(t) && InputSection.IsLoading(t.status)
  {
    s.(status := Loading, error := None, currentSvg := None)
  }

  /** The alert for a caught error: a fixed title, and the error's message
      unless it is empty. */
  function AlertFor(message: string): (e: ApiError)
    ensures e.message == FailureTitle && e.details != ""
    ensures message != "" ==> e.details == message
    ensures message == "" ==> e.details == FailureFallback
  {
    ApiError(FailureTitle, if message != "" then message else FailureFallback)
  }

  /** `handleGenerate` after its `await`: the rest of the `try` block, or
      the `catch` block. It leaves SUCCESS exactly on a result and ERROR
      exactly on a failure; the success path does not touch `error` and the
      failure path does not touch `currentSvg`, so finishing a started
      generation yields a consistent state. */
  function FinishGeneration(s: AppState, prompt: string, outcome: Result<string, string>,
                            id: string, timestamp: int): (t: AppState)
    ensures t.status == Success <==> outcome.Ok?
    ensures t.status == Error <==> outcome.Err?
    ensures outcome.Ok? ==> t.error == s.error && t.currentSvg.Some? && t.currentSvg.value.prompt == prompt
    ensures outcome.Err? ==> t.currentSvg == s.currentSvg && t.error.Some?
    ensures s.currentSvg.None? && s.error.None? ==> Consistent(t)
  {
    match outcome
    case Ok(svg) =>
      s.(currentSvg := Some(GeneratedSvg(id, svg, prompt, timestamp)), status := Success)
    case Err(message) =>
      s.(status := Error, error := Some(AlertFor(message)))
  }

  /** A whole `handleGenerate` call, whatever the state before it: on
      success the asset holds the service's text and the submitted prompt
      and no alert is left; on failure the previous asset is gone and the
      alert is set. */
  function HandleGenerate(s: AppState, prompt: string, outcome: Result<string, string>,
                          id: string, timestamp: int): (t: AppState)
    ensures Consistent(t)
    ensures outcome.Ok? ==>
              t.status == Success && t.error.None?
              && t.currentSvg == Some(GeneratedSvg(id, outcome.value, prompt, timestamp))
    ensures outcome.Err? ==>
              t.status == Error && t.currentSvg.None?
              && t.error == Some(AlertFor(outcome.error))
  {
    FinishGeneration(StartGeneration(s), prompt, outcome, id, timestamp)
  }

  /* ---------------- what the page shows ---------------- */

  /** The three status-dependent regions below the form: the alert, the
      preview and the placeholder. */
  datatype Panels = Panels(alert: Option<ApiError>, preview: Option<GeneratedSvg>, placeholder: bool)

  function Shown(v: Panels): nat {
    (if v.alert.Some? then 1 else 0) + (if v.preview.Some? then 1 else 0)
    + (if v.placeholder then 1 else 0)
  }

  /** At most one region is shown, and none while loading. */
  function Render(s: AppState): (v: Panels)
    ensures Shown(v) <= 1
    ensures s.status == Loading ==> Shown(v) == 0
  {
    Panels(if s.status == Error && s.error.Some? then s.error else None,
           if s.status == Success && s.currentSvg.Some? then s.currentSvg else None,
           s.status == Idle)
  }

  /** In a consistent state exactly one region is shown outside LOADING:
      the alert with the stored error, the preview of the stored asset, or
      the placeholder. */
  lemma ConsistentStateShowsOneRegion(s: AppState)
    requires Consistent(s) && s.status != Loading
    ensures Shown(Render(s)) == 1
    ensures s.status == Error ==> Render(s).alert == s.error
    ensures s.status == Success ==> Render(s).preview == s.currentSvg
    ensures Render(s).placeholder <==> s.status == Idle
  {
  }

  /* ---------------- the session ---------------- */

  /** The form's text, the page state, and the prompt of the generation
      whose service call has not settled yet. */
  datatype Session = Session(input: string, app: AppState, inFlight: Option<string>)

  const InitialSession := Session("", InitialState, None)

  datatype Event =
    | Edit(text: string)
    | PickSuggestion(k: InputSection.SuggestionIndex)
    | Submit
    | Settle(outcome: Result<string, string>, id: string, timestamp: int)

  /** One user action or the settling of the pending service call. The text
      field and the suggestion buttons are disabled while loading, so they
      change nothing then; a submit goes through `handleSubmit`, and when
      that forwards a prompt `handleGenerate` runs up to its `await`. */
  function Step(s: Session, e: Event): (r: Session)
    ensures e.Edit? || e.PickSuggestion? ==> r.app == s.app && r.inFlight == s.inFlight
    ensures e.Settle? || e.Submit? ==> r.input == s.input
    ensures r.inFlight.Some? && s.inFlight.None? ==> e.Submit?
    ensures r.app.status != s.app.status ==> e.Submit? || e.Settle?
  {
    match e
    case Edit(text) =>
      if InputSection.IsLoading(s.app.status) then s else s.(input := text)
    case PickSuggestion(k) =>
      s.(input := InputSection.ClickSuggestion(s.input, s.app.status, k))
    case Submit =>
      (match InputSection.HandleSubmit(s.input, s.app.status)
       case None => s
       case Some(prompt) => s.(app := StartGeneration(s.app), inFlight := Some(prompt)))
    case Settle(outcome, id, timestamp) =>
      match s.inFlight
      case None => s
      case Some(prompt) =>
        s.(app := FinishGeneration(s.app, prompt, outcome, id, timestamp), inFlight := None)
  }

  function Replay(s: Session, events: seq<Event>): Session
    decreases |events|
  {
    if events == [] then s else Replay(Step(s, events[0]), events[1..])
  }

  /** The page state is consistent; a generation is pending exactly while the
      status is LOADING; every prompt sent or recorded is non-empty and
      trimmed; every alert has the fixed title and non-empty details. */
  ghost predicate SessionInvariant(s: Session) {
    && Consistent(s.app)
    && (s.inFlight.Some? <==> s.app.status == Loading)
    && (s.inFlight.Some? ==> s.inFlight.value != [] && IsTrimmed(s.inFlight.value))
    && (s.app.currentSvg.Some? ==>
          s.app.currentSvg.value.prompt != [] && IsTrimmed(s.app.currentSvg.value.prompt))
    && (s.app.error.Some? ==>
          s.app.error.value.message == FailureTitle && s.app.error.value.details != "")
  }

  lemma StepPreservesInvariant(s: Session, e: Event)
    requires SessionInvariant(s)
    ensures SessionInvariant(Step(s, e))
  {
  }

  /** Every state reachable from the initial page satisfies the invariant. */
  lemma {:induction false} ReplayKeepsInvariant(s: Session, events: seq<Event>)
    requires SessionInvariant(s)
    ensures SessionInvariant(Replay(s, events))
    decreases |events|
  {
    if events != [] {
      StepPreservesInvariant(s, events[0]);
      ReplayKeepsInvariant(Step(s, events[0]), events[1..]);
    }
  }

  lemma ReachableSessionsAreConsistent(events: seq<Event>)
    ensures SessionInvariant(Replay(InitialSession, events))
    ensures Consistent(Replay(InitialSession, events).app)
  {
    ReplayKeepsInvariant(InitialSession, events);
  }

  /** A submit the form forwards starts the generation: the page goes to
      LOADING, the previous asset and alert are cleared, the trimmed input
      is the pending prompt, and the form text is kept. */
  lemma SubmitStartsGeneration(s: Session)
    requires InputSection.HandleSubmit(s.input, s.app.status).Some?
    ensures Step(s, Submit).app.status == Loading
    ensures Step(s, Submit).app.currentSvg.None? && Step(s, Submit).app.error.None?
    ensures Step(s, Submit).inFlight == Some(Trim(s.input))
    ensures Step(s, Submit).input == s.input
  {
  }

  /** Single flight: while a generation is pending, a submit changes nothing,
      so no second prompt is sent. */
  lemma SubmitIgnoredWhilePending(s: Session)
    requires SessionInvariant(s) && s.inFlight.Some?
    ensures InputSection.HandleSubmit(s.input, s.app.status).None?
    ensures Step(s, Submit) == s
  {
  }

  /** A submit from a settled page followed by the settling of its service
      call with `outcome`: the asset holds exactly the outcome's text and the
      trimmed input, or the alert shows the outcome's message when that is
      non-empty. */
  lemma SubmitThenSettle(s: Session, outcome: Result<string, string>, id: string, timestamp: int)
    requires SessionInvariant(s) && InputSection.HandleSubmit(s.input, s.app.status).Some?
    ensures var t := Step(Step(s, Submit), Settle(outcome, id, timestamp));
            && SessionInvariant(t)
            && t.inFlight.None?
            && (outcome.Ok? ==>
                  t.app.status == Success
                  && t.app.currentSvg == Some(GeneratedSvg(id, outcome.value, Trim(s.input), timestamp)))
            && (outcome.Err? ==>
                  t.app.status == Error && t.app.currentSvg.None?
                  && t.app.error == Some(AlertFor(outcome.error)))
  {
    var s1 := Step(s, Submit);
    assert s1 == s.(app := StartGeneration(s.app), inFlight := Some(Trim(s.input)));
    StepPreservesInvariant(s, Submit);
    StepPreservesInvariant(s1, Settle(outcome, id, timestamp));
  }

  /** A full round with the service in the loop: the asset holds exactly the
      service's text; a failure's alert shows the service's own message,
      which is never empty, so the English fallback never appears for it. */
  lemma GenerationRound(s: Session, apiKey: Option<string>, reply: GeminiService.Reply,
                        id: string, timestamp: int)
    requires SessionInvariant(s) && InputSection.HandleSubmit(s.input, s.app.status).Some?
    ensures var run := GeminiService.GenerateSvgFromPrompt(apiKey, Trim(s.input), reply);
            var t := Step(Step(s, Submit), Settle(run.result, id, timestamp));
            && (run.result.Ok? ==>
                  t.app.currentSvg == Some(GeneratedSvg(id, run.result.value, Trim(s.input), timestamp)))
            && (run.result.Err? ==>
                  t.app.error == Some(ApiError(FailureTitle, run.result.error)))
  {
    var run := GeminiService.GenerateSvgFromPrompt(apiKey, Trim(s.input), reply);
    GeminiService.FailuresCarryMessage(apiKey, Trim(s.input), reply);
    SubmitThenSettle(s, run.result, id, timestamp);
  }
}

=== FILE: gemini_service.dfy ===
/**
 `generateSvgFromPrompt`: the API-key gate, the request built from the
 prompt, the single completion call, extraction of the SVG from the reply,
 and the catch block that rethrows every failure with a non-empty message.

 The environment variable, the client library and the hosted model are not
 modelled: the key is a parameter, and the outcome of the one completion call
 is a `Reply` value supplied by the caller. The run records the outward
 effects it performs, so "no call before the key check" and "exactly one
 call" are statements about that record.
 */
module GeminiService {
  import opened Wrappers
  import opened SvgExtractor

  const ModelId := "gemini-2.5-pro"

  /** The fixed system instruction, character for character as the template
      literal in the service builds it (leading newline and indentation
      included). */
  const SystemInstruction :=
    "\n" +
    "      You are a World-Class Pixel Art Generator. Your task is to output high-quality 64x64 resolution game assets as SVG code.\n" +
    "      \n" +
    "      CRITICAL TECHNICAL CONSTRAINTS:\n" +
    "      1. **Structure**: \n" +
    "         - Root <svg> must have: viewBox=\"0 0 64 64\" and xmlns=\"http://www.w3.org/2000/svg\".\n" +
    "         - Use shape-rendering=\"crispEdges\" on the root <svg> element.\n" +
    "      2. **Pixel Logic**: \n" +
    "         - Create pixel art by using <rect> elements.\n" +
    "         - Every <rect> must have integer x, y, width, and height values.\n" +
    "         - Width and height should usually be 1, but can be larger for blocks of the same color.\n" +
    "      3. **Aesthetics**:\n" +
    "         - Style: 16-bit or 32-bit console game assets.\n" +
    "         - Use vibrant color palettes with high contrast.\n" +
    "         - Use dark outlines (usually dark blue or black) to define the shape.\n" +
    "         - Add highlights and shadows (shading) within the 64x64 grid to give depth.\n" +
    "      4. **Output Format**:\n" +
    "         - Return ONLY the raw SVG code. \n" +
    "         - Do not include markdown formatting, backticks, or any explanations.\n" +
    "         - Start immediately with <svg and end with </svg>.\n" +
    "      5. **Content**:\n" +
    "         - Focus on the asset only. Ensure it is centered in the 64x64 space.\n" +
    "         - Leave a small 1-2 pixel margin around the edge if possible to avoid clipping.\n" +
    "    "

  /** Sampling settings, carried as exact decimals; the source passes them as
      JavaScript numbers. */
  const Temperature: real := 0.3
  const TopP: real := 0.8
  const TopK: int := 40

  const MissingKeyMessage :=
    "A chave de API do Gemini n\U{00E3}o foi configurada. Por favor, adicione-a ao seu arquivo .env.local."
  const GenerationFallbackMessage := "Falha ao gerar o pixel asset."

  const PromptLead := "Create a high-detail 64x64 pixel art SVG of: \""
  const PromptTrail := "\""

  datatype GenerationConfig =
    GenerationConfig(systemInstruction: string, temperature: real, topP: real, topK: int)

  /** The argument of the one `generateContent` call. */
  datatype ContentRequest = ContentRequest(model: string, contents: string, config: GenerationConfig)

  /** How the completion call ended: a response whose `text` may be absent,
      or a thrown error whose `message` may be absent. */
  datatype Reply = Answered(text: Option<string>) | Rejected(message: Option<string>)

  /** Outward effects of a run, in order. */
  datatype Effect = ClientCreated(apiKey: string) | ContentRequested(request: ContentRequest)

  /** What a run did and how it ended: the returned SVG text or the message
      of the rethrown error. */
  datatype Run = Run(effects: seq<Effect>, result: Result<string, string>)

  const FixedConfig := GenerationConfig(SystemInstruction, Temperature, TopP, TopK)

  /** The user content: the prompt, verbatim, inside the fixed sentence. */
  function FullPrompt(prompt: string): string {
    PromptLead + prompt + PromptTrail
  }

  function BuildRequest(prompt: string): ContentRequest {
    ContentRequest(ModelId, FullPrompt(prompt), FixedConfig)
  }

  /** Reads the prompt back out of a user content string, when the content has
      the shape the template produces. */
  function PromptOf(contents: string): Option<string> {
    if |contents| >= |PromptLead| + |PromptTrail|
       && contents[..|PromptLead|] == PromptLead
       && contents[|contents| - |PromptTrail|..] == PromptTrail
    then Some(contents[|PromptLead|..|contents| - |PromptTrail|])
    else None
  }

  /** The user content carries the prompt unchanged and recoverably: reading
      it back gives the prompt, so distinct prompts give distinct requests. */
  lemma PromptRoundTrip(prompt: string)
    ensures PromptOf(BuildRequest(prompt).contents) == Some(prompt)
  {
    var c := FullPrompt(prompt);
    assert c[..|PromptLead|] == PromptLead;
    assert c[|c| - |PromptTrail|..] == PromptTrail;
    assert c[|PromptLead|..|c| - |PromptTrail|] == prompt;
  }

  /** Model id, system instruction and sampling settings are the same for
      every prompt: only the user content depends on the user. */
  lemma SettingsIndependentOfPrompt(p: string, q: string)
    ensures BuildRequest(p).model == BuildRequest(q).model == ModelId
    ensures BuildRequest(p).config == BuildRequest(q).config == FixedConfig
    ensures BuildRequest(p).config.systemInstruction == SystemInstruction
  {
  }

  /** `!process.env.GEMINI_API_KEY` is false: the key is present and not
      the empty string. */
  predicate KeyConfigured(apiKey: Option<string>) {
    apiKey.Some? && apiKey.value != ""
  }

  /** `error.message || fallback`: the caught error's message when it is
      present and non-empty, the fixed Portuguese fallback otherwise. */
  function RethrownMessage(message: Option<string>): (m: string)
    ensures m != ""
    ensures message.Some? && message.value != "" ==> m == message.value
    ensures message.None? || message.value == "" ==> m == GenerationFallbackMessage
  {
    if message.Some? && message.value != "" then message.value else GenerationFallbackMessage
  }

  /** The body of the `try` block: its effects, and either the returned SVG
      text or the `message` of the error it throws. */
  function TryBlock(apiKey: Option<string>, prompt: string, reply: Reply)
    : (Result<string, Option<string>>, seq<Effect>)
  {
    if !KeyConfigured(apiKey) then
      (Err(Some(MissingKeyMessage)), [])
    else
      var effects := [ClientCreated(apiKey.value), ContentRequested(BuildRequest(prompt))];
      match reply
      case Rejected(message) => (Err(message), effects)
      case Answered(text) => (Ok(ExtractSvg(text.GetOr(""))), effects)
  }

  /** `generateSvgFromPrompt(prompt)` with the key and the completion call's
      outcome as parameters: the `try` block followed by the `catch` block. */
  function GenerateSvgFromPrompt(apiKey: Option<string>, prompt: string, reply: Reply): Run {
    var (outcome, effects) := TryBlock(apiKey, prompt, reply);
    match outcome
    case Ok(svg) => Run(effects, Ok(svg))
    case Err(message) => Run(effects, Err(RethrownMessage(message)))
  }

  /** The completion requests a run issued: a request is listed exactly
      when the run recorded a `ContentRequested` effect for it. */
  function RequestsIssued(effects: seq<Effect>): (rs: seq<ContentRequest>)
    ensures forall r :: r in rs <==> ContentRequested(r) in effects
  {
    if effects == [] then []
    else
      var rest := RequestsIssued(effects[1..]);
      match effects[0]
      case ContentRequested(r) => [r] + rest
      case ClientCreated(_) => rest
  }

  /** A missing or empty key rejects before any client is created or any
      completion is requested, with the fixed configuration message, which
      the catch block passes on unchanged. */
  lemma MissingKeyRejectsBeforeAnyCall(apiKey: Option<string>, prompt: string, reply: Reply)
    requires !KeyConfigured(apiKey)
    ensures GenerateSvgFromPrompt(apiKey, prompt, reply).effects == []
    ensures GenerateSvgFromPrompt(apiKey, prompt, reply).result == Err(MissingKeyMessage)
  {
  }

  /** With a key, the client is created with that key and exactly one
      completion is requested, for the templated prompt: there is no retry,
      whatever the reply. */
  lemma ExactlyOneCompletionCall(apiKey: Option<string>, prompt: string, reply: Reply)
    requires KeyConfigured(apiKey)
    ensures GenerateSvgFromPrompt(apiKey, prompt, reply).effects[0] == ClientCreated(apiKey.value)
    ensures RequestsIssued(GenerateSvgFromPrompt(apiKey, prompt, reply).effects) == [BuildRequest(prompt)]
  {
    var effects := GenerateSvgFromPrompt(apiKey, prompt, reply).effects;
    assert effects == [ClientCreated(apiKey.value), ContentRequested(BuildRequest(prompt))];
    assert effects[1..] == [ContentRequested(BuildRequest(prompt))];
    assert effects[1..][1..] == [];
    assert RequestsIssued(effects[1..]) == [BuildRequest(prompt)];
  }

  /** A failed completion call is rethrown with its own message when it has a
      non-empty one and with the fallback otherwise; every failure of a run,
      the key check included, carries a non-empty message. */
  lemma FailuresCarryMessage(apiKey: Option<string>, prompt: string, reply: Reply)
    ensures GenerateSvgFromPrompt(apiKey, prompt, reply).result.Err? ==>
              GenerateSvgFromPrompt(apiKey, prompt, reply).result.error != ""
    ensures KeyConfigured(apiKey) && reply.Rejected? ==>
              GenerateSvgFromPrompt(apiKey, prompt, reply).result
                == Err(RethrownMessage(reply.message))
  {
  }

  /** With a key, an answered call always succeeds: the result is the SVG
      extracted from the reply text, and an absent or empty text yields the
      empty string rather than an error. */
  lemma AnswersAreExtracted(apiKey: Option<string>, prompt: string, text: Option<string>)
    requires KeyConfigured(apiKey)
    ensures GenerateSvgFromPrompt(apiKey, prompt, Answered(text)).result
            == Ok(ExtractSvg(text.GetOr("")))
    ensures text.None? || text.value == "" ==>
              GenerateSvgFromPrompt(apiKey, prompt, Answered(text)).result == Ok("")
  {
    assert FirstMatch("") == None;
    assert StripFences("") == "";
  }
}

=== FILE: generation_types.dfy ===
/**
 The records the UI passes around. Their shapes follow how `App.tsx` and
 `components/InputSection.tsx` build and read them; the type declarations
 file itself is not part of this model.
 */
module GenerationTypes {

  /** `GenerationStatus`. */
  datatype Status = Idle | Loading | Success | Error

  /** `GeneratedSvg`: one generated asset. `id` and `timestamp` come from
      `crypto.randomUUID()` and `Date.now()`, which are parameters here. */
  datatype GeneratedSvg = GeneratedSvg(id: string, content: string, prompt: string, timestamp: int)

  /** `ApiError`: the title and the details of the alert panel. */
  datatype ApiError = ApiError(message: string, details: string)
}

=== FILE: input_section.dfy ===
/**
 The prompt form of `components/InputSection.tsx`: the submit handler's
 guard, the controls it disables while a generation runs, and the
 suggestion buttons.
 */
module InputSection {
  import opened Wrappers
  import opened Text
  import opened GenerationTypes

  /** `isLoading`. */
  predicate IsLoading(status: Status) {
    status == Loading
  }

  /** `handleSubmit`: the prompt forwarded to `onGenerate`, if any. It
      forwards exactly when the trimmed input is non-empty and no generation
      is running, and what it forwards is the trimmed input. */
  function HandleSubmit(input: string, status: Status): (forwarded: Option<string>)
    ensures forwarded.Some? <==> Trim(input) != [] && !IsLoading(status)
    ensures forwarded.Some? ==> forwarded.value == Trim(input)
    ensures forwarded.Some? ==> forwarded.value != [] && IsTrimmed(forwarded.value)
  {
    if Trim(input) != [] && status != Loading then Some(Trim(input)) else None
  }

  /** Which controls are disabled, and whether the button shows its busy
      label ("Forging..."). */
  datatype Controls = Controls(inputDisabled: bool, submitDisabled: bool,
                               suggestionsDisabled: bool, busyLabel: bool)

  function ControlsFor(input: string, status: Status): (c: Controls)
    ensures c.submitDisabled <==> HandleSubmit(input, status).None?
  {
    var loading := IsLoading(status);
    Controls(loading, Trim(input) == [] || loading, loading, loading)
  }

  /** The button is disabled exactly when the handler would refuse; the text
      field, the suggestions and the busy label follow `isLoading`. */
  lemma SubmitDisabledExactlyWhenRefused(input: string, status: Status)
    ensures ControlsFor(input, status).submitDisabled <==> HandleSubmit(input, status).None?
    ensures ControlsFor(input, status).inputDisabled <==> status == Loading
    ensures ControlsFor(input, status).suggestionsDisabled <==> status == Loading
    ensures ControlsFor(input, status).busyLabel <==> status == Loading
  {
  }

  const Suggestions: seq<string> :=
    ["Health Potion", "Crystal Sword", "Cyberpunk Helmet", "Forest Slime", "Retro Coin", "Magic Wand"]

  /** The position of one of the suggestion buttons. */
  type SuggestionIndex = k: nat | k < |Suggestions|

  /** The input after a click on suggestion `k`: the suggestion itself, or
      the unchanged input when the buttons are disabled. */
  function ClickSuggestion(input: string, status: Status, k: SuggestionIndex): string {
    if IsLoading(status) then input else Suggestions[k]
  }

  /** Every suggestion is non-empty and survives `trim`, so after a click a
      submit forwards exactly the suggestion. */
  lemma SuggestionSubmitsVerbatim(input: string, status: Status, k: SuggestionIndex)
    requires !IsLoading(status)
    ensures ClickSuggestion(input, status, k) == Suggestions[k]
    ensures HandleSubmit(ClickSuggestion(input, status, k), status) == Some(Suggestions[k])
  {
    var s := Suggestions[k];
    assert s != [] && !IsJsWhitespace(s[0]) && !IsJsWhitespace(s[|s| - 1]);
    TrimKeepsTrimmed(s);
  }
}

=== FILE: svg_extractor.dfy ===
/**
 The SVG extractor of `generateSvgFromPrompt`: from the model's raw reply
 text to the SVG string handed to the UI. It is total and never fails.

 - Match path: the first match of `/<svg[\s\S]*?<\/svg>/i` is taken; when it
   lacks the case-sensitive text `crispEdges`, its first case-sensitive
   `<svg` becomes `<svg shape-rendering="crispEdges"`.
 - Fallback path: every "```xml", then every "```svg", then every "```" is
   deleted from the whole reply and the rest is trimmed.

 The regular expression folds case but `includes` and `replace` do not, so a
 match opening with `<SVG` is patched at a later lowercase `<svg`, or not at
 all. That is modelled as the code has it.
 */
module SvgExtractor {
  import opened Wrappers
  import opened Text

  const OpenTag := "<svg"
  const CloseTag := "</svg>"
  const CrispMarker := "crispEdges"
  /** The text the patch inserts right after the first lowercase `<svg`. */
  const RenderingPrefix := " shape-rendering=\""
  const CrispAttribute := RenderingPrefix + CrispMarker + "\""
  const PatchedOpenTag := OpenTag + CrispAttribute

  const XmlFence := "```xml"
  const SvgFence := "```svg"
  const Fence := "```"

  /* ---------------- the regular expression ---------------- */

  /** `t` is in the language of `<svg[\s\S]*?<\/svg>` under `/i`: an
      ASCII-case-insensitive `<svg`, any characters at all (newlines
      included), then an ASCII-case-insensitive `</svg>`. */
  predicate InSvgLanguage(t: string) {
    |t| >= |OpenTag| + |CloseTag|
    && Fold(t[..|OpenTag|]) == OpenTag
    && Fold(t[|t| - |CloseTag|..]) == CloseTag
  }

  /** The match `String.prototype.match` reports for a non-global regular
      expression: the leftmost start at which the pattern matches, and at
      that start the shortest end, since `*?` is lazy. */
  ghost predicate IsFirstMatch(s: string, i: int, j: int) {
    && 0 <= i <= j <= |s|
    && InSvgLanguage(s[i..j])
    && (forall i', j' :: 0 <= i' < i && i' <= j' <= |s| ==> !InSvgLanguage(s[i'..j']))
    && (forall j' :: i <= j' < j ==> !InSvgLanguage(s[i..j']))
  }

  /** No infix of `s` is in the language: `match` returns `null`. */
  ghost predicate HasNoMatch(s: string) {
    forall i, j :: 0 <= i <= j <= |s| ==> !InSvgLanguage(s[i..j])
  }

  datatype Span = Span(start: nat, end: nat)

  /** The search the regular-expression engine performs: the first folded
      `<svg`, then the first folded `</svg>` starting at least four
      characters later. If that first `<svg` has no closing tag after it, no
      later one has either, so there is no match at all. */
  function FirstMatch(s: string): Option<Span> {
    var folded := Fold(s);
    match Find(folded, OpenTag, 0)
    case None => None
    case Some(i) =>
      match Find(folded, CloseTag, i + |OpenTag|)
      case None => None
      case Some(k) => Some(Span(i, k + |CloseTag|))
  }

  /** Membership in the language is an opening tag and a closing tag in the
      folded text, far enough apart not to overlap. */
  lemma LanguageByTags(s: string, i: int, j: int)
    requires 0 <= i <= j <= |s|
    ensures InSvgLanguage(s[i..j]) <==>
              i + |OpenTag| <= j - |CloseTag|
              && OccursAt(Fold(s), OpenTag, i)
              && OccursAt(Fold(s), CloseTag, j - |CloseTag|)
  {
    if i + |OpenTag| + |CloseTag| <= j {
      assert s[i..j][..|OpenTag|] == s[i..i + |OpenTag|];
      FoldSlice(s, i, i + |OpenTag|);
      assert s[i..j][j - i - |CloseTag|..] == s[j - |CloseTag|..j];
      FoldSlice(s, j - |CloseTag|, j);
    }
  }

  /** `FirstMatch` computes exactly the match JavaScript reports: the
      leftmost, then shortest, infix in the regular expression's language;
      and `None` exactly when no infix is in the language. */
  lemma FirstMatchIsLeftmostShortest(s: string)
    ensures FirstMatch(s).Some? ==> IsFirstMatch(s, FirstMatch(s).value.start, FirstMatch(s).value.end)
    ensures FirstMatch(s).None? <==> HasNoMatch(s)
  {
    var folded := Fold(s);
    match Find(folded, OpenTag, 0)
    case None =>
      NoMatchWithoutOpenTag(s);
    case Some(i) =>
      match Find(folded, CloseTag, i + |OpenTag|)
      case None =>
        NoMatchWithoutCloseTag(s, i);
      case Some(k) =>
        MatchAtFirstTags(s, i, k);
  }

  lemma NoMatchWithoutOpenTag(s: string)
    requires forall k :: 0 <= k ==> !OccursAt(Fold(s), OpenTag, k)
    ensures HasNoMatch(s)
  {
    forall i, j | 0 <= i <= j <= |s|
      ensures !InSvgLanguage(s[i..j])
    {
      LanguageByTags(s, i, j);
    }
  }

  lemma NoMatchWithoutCloseTag(s: string, i: nat)
    requires IsFirstFrom(Fold(s), OpenTag, 0, i)
    requires forall k :: i + |OpenTag| <= k ==> !OccursAt(Fold(s), CloseTag, k)
    ensures HasNoMatch(s)
  {
    forall i', j' | 0 <= i' <= j' <= |s|
      ensures !InSvgLanguage(s[i'..j'])
    {
      LanguageByTags(s, i', j');
    }
  }

  lemma MatchAtFirstTags(s: string, i: nat, k: nat)
    requires IsFirstFrom(Fold(s), OpenTag, 0, i)
    requires IsFirstFrom(Fold(s), CloseTag, i + |OpenTag|, k)
    ensures IsFirstMatch(s, i, k + |CloseTag|)
    ensures !HasNoMatch(s)
  {
    var j := k + |CloseTag|;
    LanguageByTags(s, i, j);
    forall i', j' | 0 <= i' < i && i' <= j' <= |s|
      ensures !InSvgLanguage(s[i'..j'])
    {
      LanguageByTags(s, i', j');
    }
    forall j' | i <= j' < j
      ensures !InSvgLanguage(s[i..j'])
    {
      LanguageByTags(s, i, j');
    }
  }

  /** Leftmost-then-shortest picks one match only. */
  lemma FirstMatchUnique(s: string, i: int, j: int, i': int, j': int)
    requires IsFirstMatch(s, i, j) && IsFirstMatch(s, i', j')
    ensures i == i' && j == j'
  {
  }

  /* ---------------- the crispEdges patch ---------------- */

  /** The matched text with the rendering hint added: unchanged when it already
      says `crispEdges` anywhere or holds no lowercase `<svg`; otherwise the
      attribute goes right after its first lowercase `<svg` and every other
      character stays where it was. The result says `crispEdges` exactly
      when the match did or the match holds a lowercase `<svg`. */
  function Patch(m: string): (r: string)
    ensures Contains(m, CrispMarker) ==> r == m
    ensures NoOccurrence(m, OpenTag) ==> r == m
    ensures forall p {:trigger IsFirstFrom(m, OpenTag, 0, p)} ::
              !Contains(m, CrispMarker) && IsFirstFrom(m, OpenTag, 0, p) ==>
                r == m[..p + |OpenTag|] + CrispAttribute + m[p + |OpenTag|..]
    ensures Contains(r, CrispMarker) <==> Contains(m, CrispMarker) || !NoOccurrence(m, OpenTag)
  {
    if Contains(m, CrispMarker) then m
    else
      match Find(m, OpenTag, 0)
      case None => m
      case Some(p) =>
        InsertAttribute(m, p);
        ReplaceFirst(m, OpenTag, PatchedOpenTag)
  }

  /** Replacing the first lowercase `<svg` at `p` by the patched tag is the
      same as inserting the attribute right after it, and the result then
      says `crispEdges`. */
  lemma InsertAttribute(m: string, p: nat)
    requires IsFirstFrom(m, OpenTag, 0, p)
    ensures ReplaceFirst(m, OpenTag, PatchedOpenTag)
            == m[..p + |OpenTag|] + CrispAttribute + m[p + |OpenTag|..]
    ensures Contains(ReplaceFirst(m, OpenTag, PatchedOpenTag), CrispMarker)
  {
    var q := p + |OpenTag|;
    var r := ReplaceFirst(m, OpenTag, PatchedOpenTag);
    assert m[..q] == m[..p] + OpenTag;
    assert r == m[..q] + CrispAttribute + m[q..];
    var a := q + |RenderingPrefix|;
    assert r[a..a + |CrispMarker|] == CrispAttribute[|RenderingPrefix|..|RenderingPrefix| + |CrispMarker|];
    assert OccursAt(r, CrispMarker, a);
  }

  /* ---------------- the fence-stripping fallback ---------------- */

  /** The last character of a prefix that ends right before the first "```"
      cannot be a backtick, or the first "```" would start earlier. */
  lemma BeforeFirstFence(s: string, p: nat)
    requires IsFirstFrom(s, Fence, 0, p)
    ensures NoOccurrence(s[..p], Fence)
    ensures p == 0 || s[p - 1] != '`'
  {
    forall k | OccursAt(s[..p], Fence, k)
      ensures false
    {
      OccursInInfix(s, 0, p, Fence, k);
    }
    if p > 0 && s[p - 1] == '`' {
      FenceOneEarlier(s, p);
    }
  }

  lemma FenceOneEarlier(s: string, p: nat)
    requires 0 < p && OccursAt(s, Fence, p) && s[p - 1] == '`'
    ensures OccursAt(s, Fence, p - 1)
  {
    assert s[p..p + |Fence|] == Fence;
    assert s[p] == '`' && s[p + 1] == '`';
    assert s[p - 1..p - 1 + |Fence|] == [s[p - 1], s[p], s[p + 1]];
  }

  /** Joining two fence-free strings creates no fence when the first one does
      not end with a backtick. */
  lemma JoinWithoutFence(a: string, b: string)
    requires NoOccurrence(a, Fence) && NoOccurrence(b, Fence)
    requires a == [] || a[|a| - 1] != '`'
    ensures NoOccurrence(a + b, Fence)
  {
    forall k | 0 <= k && k + |Fence| <= |a + b|
      ensures !OccursAt(a + b, Fence, k)
    {
      if k + |Fence| <= |a| {
        assert (a + b)[k..k + |Fence|] == a[k..k + |Fence|];
        assert !OccursAt(a, Fence, k);
      } else if k >= |a| {
        assert (a + b)[k..k + |Fence|] == b[k - |a|..k - |a| + |Fence|];
        assert !OccursAt(b, Fence, k - |a|);
      } else {
        assert (a + b)[k..k + |Fence|][|a| - 1 - k] == a[|a| - 1] != '`';
      }
    }
  }

  /** Deleting every "```" left to right leaves none behind: a deletion
      cannot splice two backtick runs into a new fence. */
  lemma {:induction false} RemoveAllFencesLeavesNone(s: string)
    ensures NoOccurrence(RemoveAll(s, Fence), Fence)
    decreases |s|
  {
    match Find(s, Fence, 0)
    case None =>
    case Some(p) =>
      var rest := s[p + |Fence|..];
      RemoveAllFencesLeavesNone(rest);
      BeforeFirstFence(s, p);
      JoinWithoutFence(s[..p], RemoveAll(rest, Fence));
  }

  /** The fallback result: the reply with "```xml", "```svg" and "```"
      deleted in that order, then trimmed. */
  function StripFences(raw: string): string {
    Trim(RemoveAll(RemoveAll(RemoveAll(raw, XmlFence), SvgFence), Fence))
  }

  /** The fallback holds no "```" (so no fence of any kind), has no leading
      or trailing whitespace, and on a reply that holds no "```" it is just
      `trim`. */
  lemma StripFencesClean(raw: string)
    ensures NoOccurrence(StripFences(raw), Fence)
    ensures IsTrimmed(StripFences(raw))
    ensures NoOccurrence(raw, Fence) ==> StripFences(raw) == Trim(raw)
  {
    var t := RemoveAll(RemoveAll(RemoveAll(raw, XmlFence), SvgFence), Fence);
    RemoveAllFencesLeavesNone(RemoveAll(RemoveAll(raw, XmlFence), SvgFence));
    TrimKeepsNoOccurrence(t, Fence);
    if NoOccurrence(raw, Fence) {
      NoOccurrenceOfExtension(raw, XmlFence, Fence);
      NoOccurrenceOfExtension(raw, SvgFence, Fence);
    }
  }

  /* ---------------- the extractor ---------------- */

  /** The text `generateSvgFromPrompt` returns for a reply text `raw`. With
      a match it is again an `<svg`...`</svg>` string (ignoring ASCII case);
      without one it holds no "```" and is trimmed. */
  function ExtractSvg(raw: string): (r: string)
    ensures FirstMatch(raw).Some? ==> InSvgLanguage(r)
    ensures FirstMatch(raw).None? ==> NoOccurrence(r, Fence) && IsTrimmed(r)
  {
    match FirstMatch(raw)
    case Some(span) =>
      LanguageByTags(raw, span.start, span.end);
      PatchKeepsSvgElement(raw[span.start..span.end]);
      Patch(raw[span.start..span.end])
    case None =>
      StripFencesClean(raw);
      StripFences(raw)
  }

  /** With a match, the result comes from the first match alone: the
      leftmost, shortest `<svg`...`</svg>` infix of the reply, patched. */
  lemma ExtractUsesFirstMatch(raw: string, i: int, j: int)
    requires IsFirstMatch(raw, i, j)
    ensures ExtractSvg(raw) == Patch(raw[i..j])
  {
    FirstMatchIsLeftmostShortest(raw);
    var span := FirstMatch(raw).value;
    FirstMatchUnique(raw, i, j, span.start, span.end);
  }

  /** Without a match, the result is the fence-stripped, trimmed reply. */
  lemma ExtractFallsBackToStripping(raw: string)
    requires HasNoMatch(raw)
    ensures ExtractSvg(raw) == StripFences(raw)
  {
    FirstMatchIsLeftmostShortest(raw);
  }

  /** Whatever follows the end of the first match is discarded: replacing it
      by any other text, later `<svg>` blocks included, does not change the
      result. */
  lemma LaterTextIgnored(raw: string, i: int, j: int, tail: string)
    requires IsFirstMatch(raw, i, j)
    ensures ExtractSvg(raw[..j] + tail) == ExtractSvg(raw)
  {
    var s := raw[..j] + tail;
    assert s[i..j] == raw[i..j];
    forall i', j' | 0 <= i' < i && i' <= j' <= |s|
      ensures !InSvgLanguage(s[i'..j'])
    {
      if InSvgLanguage(s[i'..j']) {
        LanguageByTags(s, i', j');
        LanguageByTags(raw, i, j);
        assert Fold(s)[..j] == Fold(raw)[..j] by {
          FoldSlice(s, 0, j);
          FoldSlice(raw, 0, j);
        }
        assert OccursAt(Fold(raw), OpenTag, i') by {
          assert Fold(s)[i'..i' + |OpenTag|] == Fold(raw)[i'..i' + |OpenTag|];
        }
        LanguageByTags(raw, i', j);
      }
    }
    forall j' | i <= j' < j
      ensures !InSvgLanguage(s[i..j'])
    {
      assert s[i..j'] == raw[i..j'];
    }
    assert IsFirstMatch(s, i, j);
    ExtractUsesFirstMatch(s, i, j);
    ExtractUsesFirstMatch(raw, i, j);
  }

  /** A lowercase `<svg` inside a folded match never overlaps its closing
      `</svg>`. */
  lemma OpenTagBeforeClose(fm: string, p: nat)
    requires |fm| >= |CloseTag| && fm[|fm| - |CloseTag|..] == CloseTag
    requires OccursAt(fm, OpenTag, p)
    ensures p + |OpenTag| <= |fm| - |CloseTag|
  {
    var c := |fm| - |CloseTag|;
    assert fm[p..p + |OpenTag|] == OpenTag;
    assert fm[p] == '<' && fm[p + 1] == 's' && fm[p + 2] == 'v' && fm[p + 3] == 'g';
    assert fm[c..] == CloseTag;
    assert fm[c] == '<' && fm[c + 1] == '/' && fm[c + 2] == 's';
  }

  /** On the match path the result is itself an `<svg ...>...</svg>` string
      (case-insensitively): the patch keeps the opening `<svg` and lands
      before the closing `</svg>`. */
  lemma MatchedResultIsSvgElement(raw: string, i: int, j: int)
    requires IsFirstMatch(raw, i, j)
    ensures InSvgLanguage(ExtractSvg(raw))
  {
    ExtractUsesFirstMatch(raw, i, j);
    PatchKeepsSvgElement(raw[i..j]);
  }

  lemma PatchKeepsSvgElement(m: string)
    requires InSvgLanguage(m)
    ensures Patch(m)[..|OpenTag|] == m[..|OpenTag|]
    ensures Patch(m)[|Patch(m)| - |CloseTag|..] == m[|m| - |CloseTag|..]
    ensures InSvgLanguage(Patch(m))
  {
    if Contains(m, CrispMarker) {
      assert Patch(m) == m;
    } else {
      match Find(m, OpenTag, 0)
      case None =>
        assert Patch(m) == m;
      case Some(p) =>
        var q := p + |OpenTag|;
        assert Fold(OpenTag) == OpenTag;
        FoldKeepsOccurrence(m, OpenTag, p);
        FoldSlice(m, |m| - |CloseTag|, |m|);
        OpenTagBeforeClose(Fold(m), p);
        InsertAttribute(m, p);
        var r := m[..q] + CrispAttribute + m[q..];
        assert Patch(m) == r;
        assert r[..|OpenTag|] == m[..|OpenTag|];
        assert r[|r| - |CloseTag|..] == m[|m| - |CloseTag|..];
        SameTagsSameLanguage(m, r);
    }
  }

  /** A string that starts and ends like a member of the language, and is no
      shorter, is in the language too. */
  lemma SameTagsSameLanguage(m: string, r: string)
    requires InSvgLanguage(m) && |m| <= |r|
    requires r[..|OpenTag|] == m[..|OpenTag|]
    requires r[|r| - |CloseTag|..] == m[|m| - |CloseTag|..]
    ensures InSvgLanguage(r)
  {
  }
}

/** Worked replies showing that the case-insensitive match and the
    case-sensitive patch disagree about upper-case tags. */
module SvgExtractorCases {
  import opened Text
  import opened SvgExtractor

  /** A match written in upper case (no lowercase `s` at all, so neither
      `<svg` nor `crispEdges`) is returned verbatim, without the rendering
      hint: `includes` and `replace` look for lowercase text only. */
  lemma UppercaseMatchIsNotPatched(raw: string, i: int, j: int)
    requires IsFirstMatch(raw, i, j)
    requires forall k :: i <= k < j ==> raw[k] != 's'
    ensures ExtractSvg(raw) == raw[i..j]
    ensures !Contains(ExtractSvg(raw), CrispMarker)
  {
    ExtractUsesFirstMatch(raw, i, j);
    WithoutLowercaseS(raw[i..j]);
  }

  /** Such a reply exists: `<SVG></SVG>` is its own first match. */
  lemma UppercaseElementIsFirstMatch()
    ensures IsFirstMatch("<SVG></SVG>", 0, 11)
    ensures forall k :: 0 <= k < 11 ==> "<SVG></SVG>"[k] != 's'
  {
    var s := "<SVG></SVG>";
    assert Fold(s[..|OpenTag|]) == OpenTag;
    assert Fold(s[|s| - |CloseTag|..]) == CloseTag;
    forall j' | 0 <= j' < |s|
      ensures !InSvgLanguage(s[0..j'])
    {
      if j' == 10 {
        assert Fold(s[0..j'][4..])[0] == '>';
      }
    }
  }

  /** Both `<svg` and `crispEdges` hold a lowercase `s`. */
  lemma WithoutLowercaseS(s: string)
    requires forall k :: 0 <= k < |s| ==> s[k] != 's'
    ensures NoOccurrence(s, OpenTag) && NoOccurrence(s, CrispMarker)
  {
    forall k | 0 <= k && k + |OpenTag| <= |s|
      ensures !OccursAt(s, OpenTag, k)
    {
      assert s[k..k + |OpenTag|][1] != OpenTag[1];
    }
    forall k | 0 <= k && k + |CrispMarker| <= |s|
      ensures !OccursAt(s, CrispMarker, k)
    {
      assert s[k..k + |CrispMarker|][3] != CrispMarker[3];
    }
  }
}

=== FILE: text.dfy ===
/**
 The JavaScript string operations the generator relies on, over `string`
 (`seq<char>`): `trim`, an ASCII-only case fold that decides the same
 matches as a non-unicode `/i` regular expression for an all-ASCII pattern, the substring search underneath `match`,
 `includes` and `replace`, `includes` itself, `replace` with a string
 pattern (first occurrence only) and `replace` with a global regular
 expression that is a plain literal (every non-overlapping occurrence, left
 to right).
 */
module Text {
  import opened Wrappers

  /* ---------------- whitespace and trim ---------------- */

  /** The code points `String.prototype.trim` strips: the ECMAScript
      WhiteSpace set (TAB, VT, FF, ZWNBSP and every Zs space) and the
      LineTerminator set (LF, CR, LS, PS). */
  predicate IsJsWhitespace(c: char) {
    || c == '\t' || c == '\n' || c == '\U{000B}' || c == '\U{000C}' || c == '\r'
    || c == ' ' || c == '\U{00A0}' || c == '\U{1680}'
    || ('\U{2000}' <= c <= '\U{200A}')
    || c == '\U{2028}' || c == '\U{2029}' || c == '\U{202F}' || c == '\U{205F}'
    || c == '\U{3000}' || c == '\U{FEFF}'
  }

  /** Neither end of `s` is whitespace: what `trim` leaves behind. */
  predicate IsTrimmed(s: string) {
    s == [] || (!IsJsWhitespace(s[0]) && !IsJsWhitespace(s[|s| - 1]))
  }

  /** The number of whitespace characters `s` starts with. */
  function LeadingSpace(s: string): (n: nat)
    ensures n <= |s|
    ensures forall k :: 0 <= k < n ==> IsJsWhitespace(s[k])
    ensures n < |s| ==> !IsJsWhitespace(s[n])
  {
    if s != [] && IsJsWhitespace(s[0]) then 1 + LeadingSpace(s[1..]) else 0
  }

  /** The number of whitespace characters `s` ends with. */
  function TrailingSpace(s: string): (n: nat)
    ensures n <= |s|
    ensures forall k :: |s| - n <= k < |s| ==> IsJsWhitespace(s[k])
    ensures n < |s| ==> !IsJsWhitespace(s[|s| - n - 1])
  {
    if s != [] && IsJsWhitespace(s[|s| - 1]) then 1 + TrailingSpace(s[..|s| - 1]) else 0
  }

  /** `String.prototype.trim`: the infix of `s` that starts after its
      leading whitespace, has only whitespace around it, and is itself
      trimmed. */
  function Trim(s: string): (r: string)
    ensures IsTrimmed(r)
    ensures LeadingSpace(s) + |r| <= |s|
    ensures r == s[LeadingSpace(s)..LeadingSpace(s) + |r|]
    ensures forall k :: 0 <= k < |s| && !(LeadingSpace(s) <= k < LeadingSpace(s) + |r|) ==>
                        IsJsWhitespace(s[k])
  {
    var a := LeadingSpace(s);
    if a == |s| then [] else s[a..|s| - TrailingSpace(s)]
  }

  /** A trimmed string is left alone by `trim`. */
  lemma TrimKeepsTrimmed(s: string)
    requires IsTrimmed(s)
    ensures Trim(s) == s
  {
  }

  /* ---------------- ASCII case folding ---------------- */

  /** An ASCII-only lowercase fold. A non-unicode `/i` regular expression
      also folds non-ASCII letters, but never maps one into ASCII, so for an
      all-ASCII pattern this fold decides the same matches. */
  function LowerAscii(c: char): char {
    if 'A' <= c <= 'Z' then (c as int + 32) as char else c
  }

  /** `s` under the ASCII-only fold: only `A`-`Z` change, each to the
      letter 32 code points up (`a`-`z`); every other code point stays. */
  function Fold(s: string): (r: string)
    ensures |r| == |s|
    ensures forall k {:trigger r[k]} :: 0 <= k < |s| && 'A' <= s[k] <= 'Z' ==> r[k] as int == s[k] as int + 32
    ensures forall k {:trigger r[k]} :: 0 <= k < |s| && !('A' <= s[k] <= 'Z') ==> r[k] == s[k]
  {
    seq(|s|, k requires 0 <= k < |s| => LowerAscii(s[k]))
  }

  /** Folding commutes with slicing. */
  lemma FoldSlice(s: string, a: nat, b: nat)
    requires a <= b <= |s|
    ensures Fold(s[a..b]) == Fold(s)[a..b]
  {
  }

  /* ---------------- occurrences and search ---------------- */

  /** `pat` occurs in `s` starting at index `k`. */
  predicate OccursAt(s: string, pat: string, k: int) {
    0 <= k && k + |pat| <= |s| && s[k..k + |pat|] == pat
  }

  ghost predicate NoOccurrence(s: string, pat: string) {
    forall k :: !OccursAt(s, pat, k)
  }

  /** `p` is the leftmost occurrence of `pat` in `s` at or after `from`. */
  ghost predicate IsFirstFrom(s: string, pat: string, from: nat, p: int) {
    from <= p && OccursAt(s, pat, p) && forall k :: from <= k < p ==> !OccursAt(s, pat, k)
  }

  /** The substring search underneath `match`, `includes` and `replace`:
      the leftmost occurrence of `pat` at or after `from`, or `None` when
      there is none. */
  function Find(s: string, pat: string, from: nat): (r: Option<nat>)
    ensures r.Some? ==> IsFirstFrom(s, pat, from, r.value)
    ensures r.None? ==> forall k :: from <= k ==> !OccursAt(s, pat, k)
    decreases |s| - from
  {
    if from + |pat| > |s| then None
    else if s[from..from + |pat|] == pat then Some(from)
    else Find(s, pat, from + 1)
  }

  /** `includes(pat)`: a case-sensitive substring test. */
  function Contains(s: string, pat: string): (r: bool)
    ensures r <==> exists k :: OccursAt(s, pat, k)
  {
    Find(s, pat, 0).Some?
  }

  /** An occurrence of a pattern that folding leaves alone survives folding. */
  lemma FoldKeepsOccurrence(s: string, pat: string, k: int)
    requires Fold(pat) == pat
    requires OccursAt(s, pat, k)
    ensures OccursAt(Fold(s), pat, k)
  {
    FoldSlice(s, k, k + |pat|);
  }

  /* ---------------- replacement ---------------- */

  /** `replace(pat, rep)` with a string pattern and a replacement without `$`
      patterns: only the leftmost occurrence of `pat` is replaced, and a
      string without `pat` is returned unchanged. */
  function ReplaceFirst(s: string, pat: string, rep: string): (r: string)
    ensures NoOccurrence(s, pat) ==> r == s
    ensures forall p {:trigger IsFirstFrom(s, pat, 0, p)} ::
              IsFirstFrom(s, pat, 0, p) ==> r == s[..p] + rep + s[p + |pat|..]
  {
    match Find(s, pat, 0)
    case None => s
    case Some(p) =>
      assert forall q :: IsFirstFrom(s, pat, 0, q) ==> q == p;
      s[..p] + rep + s[p + |pat|..]
  }

  /** `replace(/pat/g, "")` for a literal, non-empty `pat`: every
      non-overlapping occurrence, scanning left to right, is deleted. A string
      without `pat` is unchanged, and one that holds `pat` loses at least
      `|pat|` characters. */
  function RemoveAll(s: string, pat: string): (r: string)
    requires pat != []
    ensures NoOccurrence(s, pat) ==> r == s
    ensures |r| <= |s|
    ensures !NoOccurrence(s, pat) ==> |r| <= |s| - |pat|
    decreases |s|
  {
    match Find(s, pat, 0)
    case None => s
    case Some(p) => s[..p] + RemoveAll(s[p + |pat|..], pat)
  }

  /* ---------------- facts about occurrences ---------------- */

  /** An occurrence inside an infix is an occurrence in the whole string. */
  lemma OccursInInfix(s: string, i: nat, j: nat, pat: string, k: int)
    requires i <= j <= |s|
    requires OccursAt(s[i..j], pat, k)
    ensures OccursAt(s, pat, i + k)
  {
    forall m | 0 <= m < |pat|
      ensures s[i + k + m] == pat[m]
    {
      assert s[i..j][k..k + |pat|][m] == pat[m];
    }
    assert s[i + k..i + k + |pat|] == pat;
  }

  /** An infix of a string without `pat` has no `pat` either. */
  lemma NoOccurrenceInInfix(s: string, i: nat, j: nat, pat: string)
    requires i <= j <= |s|
    requires NoOccurrence(s, pat)
    ensures NoOccurrence(s[i..j], pat)
  {
    forall k | OccursAt(s[i..j], pat, k)
      ensures false
    {
      OccursInInfix(s, i, j, pat, k);
    }
  }

  /** An occurrence of a longer pattern is an occurrence of each of its
      prefixes (so a string without "```" has no "```xml" either). */
  lemma OccursPrefix(s: string, pat: string, pre: string, k: int)
    requires pre <= pat
    requires OccursAt(s, pat, k)
    ensures OccursAt(s, pre, k)
  {
    assert s[k..k + |pre|] == s[k..k + |pat|][..|pre|];
  }

  /** Trimming a string without `pat` yields a string without `pat`. */
  lemma TrimKeepsNoOccurrence(s: string, pat: string)
    requires NoOccurrence(s, pat)
    ensures NoOccurrence(Trim(s), pat)
  {
    var a := LeadingSpace(s);
    NoOccurrenceInInfix(s, a, a + |Trim(s)|, pat);
  }

  lemma NoOccurrenceOfExtension(s: string, pat: string, pre: string)
    requires pre <= pat
    requires NoOccurrence(s, pre)
    ensures NoOccurrence(s, pat)
  {
    forall k | OccursAt(s, pat, k)
      ensures false
    {
      OccursPrefix(s, pat, pre, k);
    }
  }
}

=== FILE: wrappers.dfy ===
/** `Option` and `Result`, shared by every module of the model. */
module Wrappers {

  /** A value that may be absent: JavaScript's `undefined` / `null` next to a present value. */
  datatype Option<+T> = None | Some(value: T) {

    /** The wrapped value, or `default` when absent. */
    function GetOr(default: T): T {
      match this
      case Some(v) => v
      case None => default
    }
  }

  /** Either a value the operation produced or the message of the error it threw. */
  datatype Result<+R, +E> = Ok(value: R) | Err(error: E)
}
